=== FILE: README.md ===
# Kline aggregation engine, modelled in Dafny

This project models the aggregation engine of a generator of one-minute klines
(candlesticks). The engine folds a day's stream of trades into a dense series of
1440 minute buckets per symbol. Each bucket holds open, high, low and close prices,
buy and sell volumes and turnover. A minute with no trade is filled by carrying an
earlier bucket forward. When a symbol has no earlier bucket that day, the fill
falls back to the previous day's last trade.

The model follows the code of `kline.go` as written, including where it departs
from the behaviour its authors evidently meant. The departures are proved as they
stand and listed under "## Findings". Each one has a corrected definition beside
it with the intended property proved.

Modules, one per component:

- `Outcomes` (outcomes.dfy): `Option` and `Result`.
- `Trades` (trades.dfy): the parsed trade and its millisecond-to-second timestamp.
- `Timeline` (timeline.dfy): the minute index of a trade. It divides the elapsed
  seconds by 60 and truncates toward zero, as converting `Duration.Minutes()` to `int`
  does. Dafny's own `/` is Euclidean, so truncation is written out.
- `Buckets` (buckets.dfy): `KlineData` and `Update`, folds of trade runs into one
  bucket, and the intended accumulating update.
- `Series` (series.dfy): `KlineDatas`. It covers the backward scan `getPrevData`,
  the carry-forward fill `fillPrevData` and `AddTrade`. It also holds the invariants
  ingestion keeps: no gaps, ordered buckets.
- `Dataset` (dataset.dfy): the `Kline` symbol table. It covers routing in `AddTrade`
  and the trailing fill `FillData`, both as written and as intended.
- `Export` (export.dfy): the shape of the pivot tables (`WriteToFile`) and of the
  per-instrument tables (`Record`).

Modelling choices:

- Prices and volumes are exact `real`s.
- Timestamps are whole seconds (`nat`).
- A day start is an `int` second supplied by the caller.
- A series is an immutable value holding a `seq` of buckets; `Series.Valid` says
  it has 1440 of them.
- A Go runtime panic on an out-of-range index is the error `IndexOutOfRange(i)`.
  This covers a day slot outside [0, 1440) and the first symbol of an empty
  symbol list in a pivot export.
- The fatal log or panic when the previous-day seed cannot be had is the error
  `PrevDayUnavailable(symbol)`. This covers a missing archive, an archive without
  exactly one file, a file that cannot be opened, and a last line that does not
  parse or has fewer than seven fields.
- The previous-day archive is abstracted as a function `lookup` from (symbol,
  category, day start) to the last trade, or `None`. The bucket seeded from that
  trade has open = high = low = close = its price, zero volumes, zero `Price` and
  the trade's timestamp.
- The lookup happens only when the backward scan finds no earlier non-empty slot.
- Go's map iteration order is an explicit sequence of symbols. `Export.PivotTable`
  and `Dataset.FillDataAsWritten` take one that lists every key exactly once
  (`Dataset.Enumerates`). The corrected `Dataset.FillData` takes any list of
  distinct keys and leaves the series it does not list unchanged.

Where the intended behaviour and the code disagree, the model follows the code:

- A trade is meant to be placed by floor division, and a trade outside the day is
  meant to be rejected. The code truncates toward zero and does not check the index.
- A carried minute is meant to be a zero-volume bucket at the earlier close. The
  code copies the whole earlier bucket.
- Sell volume and turnover are meant to accumulate per side and per trade. The code
  derives the sell volume from the buy volume and overwrites the turnover.
- Trailing gaps are meant to be filled after ingestion. The code's `FillData` faults
  and is never called before export, so minutes after a symbol's last trade are
  exported as zero buckets.
- Pivot rows are stamped from the table's date: midnight UTC of the run date, from
  `NewKline`. Slots are counted from 08:00 local time of the first trade's date.
  The two agree only in a UTC+8 time zone. Outside UTC+8 a full day of trades
  normally faults at the unchecked slot read (kline.go:225) before any export: a
  trade before 07:59:01 UTC, say, lands at a negative index in a UTC zone.

## Model

| member | source | states |
|---|---|---|
| Trades.MillisToSeconds | kline.go:69 | The trade timestamp is the second containing the millisecond field: s·1000 ≤ ms < s·1000 + 1000. |
| Timeline.TruncDiv | kline.go:224 | Characterises division rounding toward zero. For a ≥ 0, q·b ≤ a < q·b + b. For a < 0, q·b − b < a ≤ q·b and q ≤ 0. |
| Timeline.MinuteIndexInDay | kline.go:223-225 | The computed minute is a valid slot if and only if start − 59 ≤ ts < start + 86400. The 59 seconds before the start land in slot 0. |
| Timeline.MinuteIndex | kline.go:223-224 | For a trade at or after the day start, the index m ≥ 0 and slot m covers the seconds [start + 60m, start + 60m + 60). For an earlier trade, m ≤ 0 and start + 60m − 60 < ts ≤ start + 60m. Any trade less than 60 seconds before the start gets index 0. |
| Timeline.CheckedMinuteIndex | kline.go:222-225 | Corrected index. It succeeds if and only if start ≤ ts < start + 86400, and then the slot is in [0, 1440) and contains ts. It rejects earlier trades as BeforeDay. |
| Timeline.EarlyTradeLandsInMinuteZero | kline.go:224-225 | Any trade 1 to 59 seconds before the day start gets slot 0 as written. The corrected index rejects it. |
| Buckets.Update | kline.go:88-114 | Symbol is unchanged; close, price and timestamp come from the trade. The trade price lies within [low, high]. An empty bucket gets open = high = low = price. Otherwise open is kept, high never falls, low never rises, and each is the old value or the price. Orderedness is preserved. Buy volume accumulates buys. As written, the sell volume is the new buy volume plus this sell, and turnover is this trade's notional only. |
| Buckets.FoldOHLC | kline.go:88-102 | Folding a nonempty run of stamped trades into an empty bucket gives open = first price and close = last price. Every price lies in [low, high], and high and low are each some trade's price. The result is ordered and non-empty. |
| Buckets.FoldBuyVolume | kline.go:103-111 | After any run, the buy volume is the starting buy volume plus the sum of the run's buy volumes. |
| Buckets.FoldSellVolumeAndTurnover | kline.go:103-112 | After a nonempty run, as written: sell volume = accumulated buy volume + the last trade's sell volume. Turnover = the last trade's price × volume. |
| Buckets.UpdateIntended | kline.go:103-112 | Corrected merge. It agrees with Update on every field except sell volume and turnover, which accumulate this trade's sell volume and notional. |
| Buckets.IntendedVolumeConservation | kline.go:103-112 | With the corrected merge, buy volume, sell volume and turnover each equal the start plus the run's sum. |
| Buckets.BuyLeaksIntoSellVolume | kline.go:112 | One buy of volume 1 into an empty bucket yields sell volume 1 as written and 0 when corrected. |
| Buckets.TurnoverKeepsOnlyLastTrade | kline.go:110 | The trades 100×1 and 101×2 leave turnover 202 as written and 302 when corrected. |
| Series.NewSeries | kline.go:250-254 | A new series has the given symbol, category and day start, and 1440 empty zero buckets. |
| Series.SeedOf | kline.go:192-199 | The seed bucket built from the previous day's last trade has open = high = low = close = its price, zero `Price`, volumes and turnover, the series symbol and the trade's timestamp. It is ordered, and it is empty exactly when that timestamp is 0. |
| Series.PrevDayData | kline.go:190-203 | The previous-day seed fails exactly when the lookup fails. Otherwise it has open = high = low = close = the last trade's price, zero volumes and turnover, the trade's timestamp and the series symbol. |
| Series.PrevFilled | kline.go:206-211 | Returns the greatest index below m whose slot is non-empty. Every slot strictly between it and m is empty. It returns −1 when no such slot exists. |
| Series.PrevFilledFrame | kline.go:207-208 | The scan's answer depends only on the slots below m. |
| Series.GetPrevData | kline.go:206-213 | The loop returns the nearest non-empty slot below m with its index, or the seed with index −1, or the seed's lookup failure. Every slot in between is empty. For m > 1440 its first read faults at index m − 1. |
| Series.FillPrevData | kline.go:215-220 | For m ≤ 1440, the fill fails only when no earlier slot exists and the lookup fails, and the error is then `PrevDayUnavailable` of the series symbol. Each slot strictly between the found index and m becomes an exact copy of the source bucket. All other slots and the header are unchanged. For m > 1440 it faults at index m − 1. |
| Series.FillLeavesNoGap | kline.go:215-220 | With a stamped seed, the fill succeeds and every filled slot is non-empty. On a gap-free series every slot below m is then non-empty. |
| Series.FillPrevDataIdempotent | kline.go:215-220 | A second fill at the same minute changes nothing. |
| Series.AddTrade | kline.go:222-231 | Slot m = the truncated minute index. An index outside [0, 1440) faults with that index. Otherwise slot m becomes Update of itself and slots above m are unchanged. Slots up to the last earlier non-empty one are unchanged. Below m, the gap is filled from the carry source. The call fails only when m > 0 and the seed is needed and missing, and the error is then `PrevDayUnavailable` of the series symbol. The header is kept. |
| Series.AddTradeKeepsGapFree | kline.go:222-231 | The invariant holds for stamped trades and seeds. On a gap-free series, ingestion keeps it gap-free and leaves every slot up to the trade's minute non-empty. |
| Series.AddTradeKeepsOrdered | kline.go:222-231 | If every bucket is ordered (low ≤ open, close ≤ high), every bucket is still ordered after ingestion. |
| Series.FillCompletesDay | kline.go:215-220 | Filling a gap-free series with a stamped seed up to minute 1440 leaves no empty slot. |
| Series.EmptyDayFallback | kline.go:206-220 | Filling a day with no trades up to 1440 fails exactly when the lookup fails. Otherwise every slot equals the bucket seeded from the previous day's last trade. |
| Series.Flat | kline.go:217-218 | Corrected carried bucket: open = high = low = close = the source's close, zero volumes and turnover, with timestamp and symbol kept. |
| Series.FillPrevDataIntended | kline.go:215-220 | Corrected fill. It fails exactly when the written fill does. Each gap slot gets the source's close as open, high, low and close, with zero volumes and turnover. Other slots are unchanged. |
| Series.EarlyMorningTradeFaults | kline.go:223-225 | In a UTC zone, a trade at 00:00:05 UTC on a series starting at 08:00 UTC gets index -479 and faults with `IndexOutOfRange(-479)`. |
| Series.EndToEndFirstTrade | kline.go:222-231 | A buy of 1 at 100 in minute 0 of a fresh series gives a bucket with sell volume 1, as written. |
| Series.EndToEndSecondTrade | kline.go:222-231 | A following sell of 2 at 101 gives high 101, close 101, buy volume 1, sell volume 3 and turnover 202, as written. |
| Series.EndToEndMinuteThree | kline.go:222-231 | A following buy at 99 in minute 3 makes minutes 1 and 2 exact copies of minute 0. Minute 3 has sell volume 1 and minutes 4 to 1439 stay zero. |
| Dataset.NewKline | kline.go:238-244 | A new table has no symbols and the given date. It is valid and labelled. |
| Dataset.SeriesFor | kline.go:247-255 | A known symbol routes to its own series. An unseen one routes to a new series with that symbol, the category, the day start and 1440 zero buckets. |
| Dataset.AddTrade | kline.go:246-258 | Succeeds exactly when the routed series accepts the trade. The keys become the old keys plus the symbol, and the symbol maps to the updated series. Every other symbol's series and the date are unchanged. Validity and labelling are kept. |
| Dataset.AddTradeKeepsGapFree | kline.go:246-258 | With stamped trade and seed, routing a trade keeps every series of the table gap-free. |
| Dataset.FillDataAsWritten | kline.go:260-264 | Iterating over every key once, the trailing fill as written faults at index 1440 whenever the table has at least one symbol. An empty table is returned unchanged. |
| Dataset.FillData | kline.go:260-264 | Corrected trailing fill. Each listed series is replaced by its fill up to minute 1440 and unlisted series are unchanged. It fails exactly when some listed series' fill fails. |
| Dataset.FillDataCompletesDay | kline.go:260-264 | With gap-free series and stamped seeds, the corrected trailing fill succeeds and leaves no empty minute in any listed series. |
| Export.MetricOf | kline.go:278-311 | Each of the seven exported metrics reads its own field of the bucket. For an ordered bucket, the open, high, low and close columns lie within [low, high]. |
| Export.Record | kline.go:116-121 | A row has 8 cells: the bucket's timestamp, then each metric in its column. |
| Export.InstrumentTable | kline.go:363-366 | The per-instrument table has 1440 rows, row i being the record of minute i, under the header timestamp, open, high, low, close, buyvol, sellvol, turnover. |
| Export.PivotTable | kline.go:316-346 | Fails, at index 0, exactly when the table has no symbol. Otherwise the header is "Timestamp" followed by the symbols, and there are 1440 rows of one cell more than there are symbols. Row i starts with date·1000 + 60000·i, and cell j is the metric of symbol j's bucket at minute i. |
| Export.PivotTableIntended | kline.go:338-340 | Corrected pivot. It fails exactly when the written one does. Row i is stamped with the first millisecond of minute i of the first listed series, whose slots fix the row count (other series may start on another day), and every other cell and the header are those of the written table. |
| Export.PivotStampMisplaced | kline.go:340 | As written, when the table's date differs from the first series' day start, no row is stamped with the start of the minute its buckets hold. |
| Export.PivotStampCoversMinute | kline.go:340 | With the corrected stamps, a trade filed in minute i of the first listed series happened within the minute that row i is stamped with. |
| Export.PivotMatchesInstrumentTable | kline.go:316-368 | Every pivot cell equals the metric's column in the same minute's row of that symbol's per-instrument table. |

## Findings

The ingestion model (`Series.AddTrade`, `Dataset.AddTrade`) follows the code as
written. The corrected members stand beside it and are what a corrected ingestion
path would call.

| source | as written | input that shows it | evidently intended | confidence | as-written member | corrected member |
|---|---|---|---|---|---|---|
| kline.go:112 | the sell volume is set to the new buy volume plus this trade's sell volume | one buy of volume 1 into an empty bucket gives sell volume 1 | the sell volume accumulates sell volumes only | high; not executed | Buckets.BuyLeaksIntoSellVolume | Buckets.IntendedVolumeConservation |
| kline.go:110 | the turnover is overwritten with this trade's price × volume | trades 100×1 then 101×2 in one minute leave turnover 202 | the turnover is the sum, 302 | high; not executed | Buckets.TurnoverKeepsOnlyLastTrade | Buckets.IntendedVolumeConservation |
| kline.go:217-218 | a gap minute becomes an exact copy of the earlier bucket, volumes and turnover included | a buy of 1 in minute 0, then a trade in minute 3: minutes 1 and 2 each report buy volume 1 | a carried minute has the earlier close as open, high, low and close, with zero volume | medium; not executed | Series.EndToEndMinuteThree | Series.FillPrevDataIntended |
| kline.go:224-225 | the minute index truncates toward zero and is not checked | a trade 30 seconds before the day start is filed in minute 0 | a trade outside the day is rejected | medium; not executed | Timeline.EarlyTradeLandsInMinuteZero | Timeline.CheckedMinuteIndex |
| kline.go:340 | pivot rows are stamped from the table's date, midnight UTC of the run date (kline.go:239), while slots count from 08:00 local time (kline.go:252) | a run in a UTC time zone in which every symbol's first trade is at 07:59:01 UTC or later: row 0 is stamped at midnight while minute 0 begins at 08:00 | row i carries the first instant of minute i of the series | medium; not executed | Export.PivotStampMisplaced | Export.PivotTableIntended |
| kline.go:262 | the trailing fill scans from minute 1441 on discarded copies | any table with one symbol: the first read is slot 1440 of a 1440-slot array | fill each series up to minute 1440 and store it back | high; not executed | Dataset.FillDataAsWritten | Dataset.FillData |

## Left out

- Parsing a trade line (kline.go:53-73): field splitting, `ParseUint`, `ParseBool`, and
  `ParseFloat` with `decimal.NewFromFloat`. These are text and floating-point
  conversions. Only the millisecond-to-second truncation is modelled.
- `InexactFloat64` round trips in `Update` (kline.go:105-111): volumes are exact reals.
- Reading the previous-day archive (kline.go:157-189): a file system and zip access.
  This is replaced by the `lookup` parameter; its failure is `PrevDayUnavailable`.
- `FixHighAndLow` (kline.go:130-155): it has no observable effect and is never called.
- Deriving a series' day start from the trade's local calendar date at 08:00
  (kline.go:249-252), and parsing the run date in `NewKline` (kline.go:239). Time zones
  and calendars are not modelled; both instants are parameters.
- Timeline.MinuteIndex: `Time.Sub` saturates at ±2^63 nanoseconds, and this is not
  modelled. For a trade more than about 292 years from the day start, Go faults at
  index ±153722867, while the model faults with the unsaturated index. Such
  timestamps are outside any real trading day. Timestamps beyond the int64 range are
  left out too.
- `Save` (kline.go:266-314): file paths, directories, CSV writing and
  `FormatFloat` formatting are left out. Its seven tables are `Export.PivotTable`
  with each `Metric`, and `writeKlineToFile` is `Export.InstrumentTable` per symbol.
  The two-decimal rounding of turnover is left out as well.
- What a faulting pivot write leaves in the file (a deferred flush of the header) is
  output I/O.
- main.go is left out: directory iteration, the per-file loop and the concurrent
  category pipelines. It also calls `NewKline` with a signature that `kline.go`
  does not define.
- `Category.string` and `checkErr` (kline.go:21-43): naming and fatal logging only.

=== FILE: buckets.dfy ===
/** The one-minute OHLCV bucket (KlineData, kline.go:75-114) and how trades fold into it. */
module Buckets {
  import opened Trades

  datatype KlineData = KlineData(
    symbol: string,
    timeStamp: nat,
    open: real,
    high: real,
    low: real,
    close: real,
    price: real,
    buyVol: real,
    sellVol: real,
    turnover: real)

  /** The zero value of a bucket, which every slot of a fresh series holds. */
  const Zero := KlineData("", 0, 0.0, 0.0, 0.0, 0.0, 0.0, 0.0, 0.0, 0.0)

  /** A bucket with timestamp zero has received no trade (and carries none). */
  predicate IsEmpty(k: KlineData)
  {
    k.timeStamp == 0
  }

  /** Open and close lie between low and high. */
  predicate Ordered(k: KlineData)
  {
    k.low <= k.open <= k.high && k.low <= k.close <= k.high
  }

  function BuyPart(t: Trade): real
  {
    if t.isSell then 0.0 else t.vol
  }

  function SellPart(t: Trade): real
  {
    if t.isSell then t.vol else 0.0
  }

  /** Merge one trade into a bucket (kline.go:88-114).
      As written, the turnover is this trade's notional only and the sell volume is
      recomputed from the new buy volume; see `UpdateIntended` for the accumulating form. */
  function Update(k: KlineData, t: Trade): (r: KlineData)
    ensures r.symbol == k.symbol
    ensures r.close == t.price && r.price == t.price && r.timeStamp == t.timeStamp
    ensures r.low <= t.price <= r.high
    ensures IsEmpty(k) ==> r.open == t.price && r.high == t.price && r.low == t.price
    ensures !IsEmpty(k) ==> r.open == k.open && k.high <= r.high && r.low <= k.low
    ensures !IsEmpty(k) ==> (r.high == k.high || r.high == t.price) && (r.low == k.low || r.low == t.price)
    ensures IsEmpty(k) || Ordered(k) ==> Ordered(r)
    ensures r.buyVol == k.buyVol + BuyPart(t)
    // as written: the sell volume restarts from the buy volume (kline.go:112)
    ensures r.sellVol == r.buyVol + SellPart(t)
    // as written: the turnover is overwritten, not accumulated (kline.go:110)
    ensures r.turnover == t.price * t.vol
  {
    var p := t.price;
    var open := if k.timeStamp == 0 then p else k.open;
    var high := if k.timeStamp == 0 then p else if k.high < p then p else k.high;
    var low := if k.timeStamp == 0 then p else if p < k.low then p else k.low;
    var buyVol := k.buyVol + BuyPart(t);
    k.(open := open, high := high, low := low, close := p,
       timeStamp := t.timeStamp,
       turnover := p * t.vol,
       buyVol := buyVol,
       sellVol := buyVol + SellPart(t),
       price := p)
  }

  /** Apply the trades in order, oldest first. */
  function Fold(k: KlineData, trades: seq<Trade>): KlineData
    decreases |trades|
  {
    if |trades| == 0 then k else Update(Fold(k, trades[..|trades| - 1]), trades[|trades| - 1])
  }

  /** Every trade carries a nonzero timestamp. */
  predicate Stamped(trades: seq<Trade>)
  {
    forall i :: 0 <= i < |trades| ==> trades[i].timeStamp != 0
  }

  function BuySum(trades: seq<Trade>): real
    decreases |trades|
  {
    if |trades| == 0 then 0.0 else BuySum(trades[..|trades| - 1]) + BuyPart(trades[|trades| - 1])
  }

  function SellSum(trades: seq<Trade>): real
    decreases |trades|
  {
    if |trades| == 0 then 0.0 else SellSum(trades[..|trades| - 1]) + SellPart(trades[|trades| - 1])
  }

  function TurnoverSum(trades: seq<Trade>): real
    decreases |trades|
  {
    if |trades| == 0 then 0.0
    else TurnoverSum(trades[..|trades| - 1]) + trades[|trades| - 1].price * trades[|trades| - 1].vol
  }

  /** Folding a nonempty run of stamped trades into an empty bucket yields the OHLC
      summary of the run: open is the first price, close the last, and high and low
      are the greatest and least prices traded. */
  lemma {:induction false} FoldOHLC(k: KlineData, trades: seq<Trade>)
    requires IsEmpty(k) && |trades| > 0 && Stamped(trades)
    ensures var r := Fold(k, trades);
      && r.open == trades[0].price
      && r.close == trades[|trades| - 1].price
      && (forall i :: 0 <= i < |trades| ==> r.low <= trades[i].price <= r.high)
      && (exists i :: 0 <= i < |trades| && r.high == trades[i].price)
      && (exists i :: 0 <= i < |trades| && r.low == trades[i].price)
      && Ordered(r)
      && !IsEmpty(r)
  {
    var n := |trades|;
    if n == 1 {
      assert trades[..0] == [];
      assert Fold(k, trades) == Update(k, trades[0]);
      assert Fold(k, trades).high == trades[0].price;
    } else {
      var front := trades[..n - 1];
      assert Stamped(front) by {
        forall i | 0 <= i < |front| ensures front[i].timeStamp != 0 {
          assert front[i] == trades[i];
        }
      }
      FoldOHLC(k, front);
      var prev := Fold(k, front);
      var r := Fold(k, trades);
      assert r == Update(prev, trades[n - 1]);
      assert front[0] == trades[0];
      forall i | 0 <= i < n ensures r.low <= trades[i].price <= r.high {
        if i < n - 1 {
          assert front[i] == trades[i];
        }
      }
      if r.high == trades[n - 1].price {
      } else {
        var w :| 0 <= w < |front| && prev.high == front[w].price;
        assert trades[w] == front[w];
      }
      if r.low == trades[n - 1].price {
      } else {
        var w :| 0 <= w < |front| && prev.low == front[w].price;
        assert trades[w] == front[w];
      }
    }
  }

  /** As written, the buy volume accumulates every buy of the run. */
  lemma {:induction false} FoldBuyVolume(k: KlineData, trades: seq<Trade>)
    ensures Fold(k, trades).buyVol == k.buyVol + BuySum(trades)
    decreases |trades|
  {
    if |trades| > 0 {
      FoldBuyVolume(k, trades[..|trades| - 1]);
    }
  }

  /** As written, after a nonempty run the sell volume is the accumulated buy volume
      plus the last trade's sell volume, and the turnover is the last trade's notional. */
  lemma FoldSellVolumeAndTurnover(k: KlineData, trades: seq<Trade>)
    requires |trades| > 0
    ensures var last := trades[|trades| - 1];
      && Fold(k, trades).sellVol == k.buyVol + BuySum(trades) + SellPart(last)
      && Fold(k, trades).turnover == last.price * last.vol
  {
  }

  /** The merge the bucket evidently intends: the OHLC part of `Update`, with the sell
      volume and the turnover accumulated like the buy volume. */
  function UpdateIntended(k: KlineData, t: Trade): (r: KlineData)
    ensures r.sellVol == k.sellVol + SellPart(t)
    ensures r.turnover == k.turnover + t.price * t.vol
    ensures r.(sellVol := 0.0, turnover := 0.0) == Update(k, t).(sellVol := 0.0, turnover := 0.0)
  {
    Update(k, t).(sellVol := k.sellVol + SellPart(t), turnover := k.turnover + t.price * t.vol)
  }

  function FoldIntended(k: KlineData, trades: seq<Trade>): KlineData
    decreases |trades|
  {
    if |trades| == 0 then k
    else UpdateIntended(FoldIntended(k, trades[..|trades| - 1]), trades[|trades| - 1])
  }

  /** With the intended merge, volumes and turnover are conserved: each is the
      starting amount plus the sum over the trades, with no double counting. */
  lemma {:induction false} IntendedVolumeConservation(k: KlineData, trades: seq<Trade>)
    ensures FoldIntended(k, trades).buyVol == k.buyVol + BuySum(trades)
    ensures FoldIntended(k, trades).sellVol == k.sellVol + SellSum(trades)
    ensures FoldIntended(k, trades).turnover == k.turnover + TurnoverSum(trades)
    decreases |trades|
  {
    if |trades| > 0 {
      IntendedVolumeConservation(k, trades[..|trades| - 1]);
    }
  }

  /** A single buy into an empty bucket already shows a sell volume: the sell
      volume is derived from the buy volume (kline.go:112). */
  lemma BuyLeaksIntoSellVolume()
    ensures var t := Trade(1, 100.0, 1.0, 5, false);
      && Update(Zero, t).sellVol == 1.0
      && UpdateIntended(Zero, t).sellVol == 0.0
  {
  }

  /** Two trades of notional 100 and 202 leave a turnover of 202 instead of 302
      (kline.go:110). */
  lemma TurnoverKeepsOnlyLastTrade()
    ensures var t1 := Trade(1, 100.0, 1.0, 5, false);
      var t2 := Trade(2, 101.0, 2.0, 40, true);
      && Fold(Zero, [t1, t2]).turnover == 202.0
      && FoldIntended(Zero, [t1, t2]).turnover == 302.0
  {
    var t1 := Trade(1, 100.0, 1.0, 5, false);
    var t2 := Trade(2, 101.0, 2.0, 40, true);
    assert [t1, t2][..1] == [t1];
    assert [t1][..0] == [];
    assert FoldIntended(Zero, [t1]) == UpdateIntended(Zero, t1);
    assert FoldIntended(Zero, [t1, t2]) == UpdateIntended(FoldIntended(Zero, [t1]), t2);
  }
}

=== FILE: dataset.dfy ===
/** The day's symbol table (Kline, kline.go:233-264): one series per symbol, created
    on the symbol's first trade. */
module Dataset {
  import opened Outcomes
  import opened Trades
  import opened Buckets
  import opened Timeline
  import Series

  datatype Kline = Kline(symbolData: map<string, Series.KlineDatas>, date: int)

  /** An empty table for the day starting at second `date` (kline.go:238-244). */
  function NewKline(date: int): (k: Kline)
    ensures k.symbolData == map[] && k.date == date
    ensures Valid(k) && Labelled(k)
  {
    Kline(map[], date)
  }

  /** Every series holds one bucket per minute of the day. */
  predicate Valid(k: Kline)
  {
    forall sym :: sym in k.symbolData ==> Series.Valid(k.symbolData[sym])
  }

  /** Every series is filed under its own symbol. */
  predicate Labelled(k: Kline)
  {
    forall sym :: sym in k.symbolData ==> k.symbolData[sym].symbol == sym
  }

  /** Every series is gap-free. */
  predicate AllGapFree(k: Kline)
    requires Valid(k)
  {
    forall sym :: sym in k.symbolData ==> Series.GapFree(k.symbolData[sym])
  }

  /** The series a trade for `symbol` goes to: the existing one, or a fresh series
      whose day starts at `dayStart` (kline.go:247-255). */
  function SeriesFor(k: Kline, symbol: string, category: Series.Category, dayStart: int): (s: Series.KlineDatas)
    requires Valid(k)
    ensures Series.Valid(s)
    ensures symbol in k.symbolData ==> s == k.symbolData[symbol]
    ensures symbol !in k.symbolData ==>
      && s.symbol == symbol && s.category == category && s.date == dayStart
      && forall i :: 0 <= i < SlotsPerDay ==> s.datas[i] == Zero
  {
    if symbol in k.symbolData then k.symbolData[symbol] else Series.NewSeries(symbol, category, dayStart)
  }

  /** Route one trade to its symbol's series (kline.go:246-258). The day start of a new
      series and the category are supplied by the caller. */
  function AddTrade(k: Kline, symbol: string, t: Trade, category: Series.Category, dayStart: int,
                    lookup: Series.PrevDayLookup): (r: Result<Kline, Series.Fault>)
    requires Valid(k)
    ensures var res := Series.AddTrade(SeriesFor(k, symbol, category, dayStart), t, lookup);
      && (r.Err? <==> res.Err?)
      && (r.Err? ==> r.error == res.error)
    ensures r.Ok? ==>
      && Valid(r.value)
      && r.value.date == k.date
      && r.value.symbolData.Keys == k.symbolData.Keys + {symbol}
      && r.value.symbolData[symbol] == Series.AddTrade(SeriesFor(k, symbol, category, dayStart), t, lookup).value
      && (forall other :: other in k.symbolData && other != symbol ==>
            r.value.symbolData[other] == k.symbolData[other])
      && (Labelled(k) ==> Labelled(r.value))
  {
    match Series.AddTrade(SeriesFor(k, symbol, category, dayStart), t, lookup)
    case Err(e) => Err(e)
    case Ok(s) => Ok(k.(symbolData := k.symbolData[symbol := s]))
  }

  /** Routing keeps every series gap-free. */
  lemma AddTradeKeepsGapFree(k: Kline, symbol: string, t: Trade, category: Series.Category, dayStart: int,
                             lookup: Series.PrevDayLookup)
    requires Valid(k) && AllGapFree(k) && t.timeStamp != 0
    requires Series.SeedStamped(SeriesFor(k, symbol, category, dayStart), lookup)
    requires AddTrade(k, symbol, t, category, dayStart, lookup).Ok?
    ensures AllGapFree(AddTrade(k, symbol, t, category, dayStart, lookup).value)
  {
  }

  /** `order` lists keys of the table without repetition, as a range over a Go map does. */
  predicate Distinct(order: seq<string>)
  {
    forall i, j :: 0 <= i < j < |order| ==> order[i] != order[j]
  }

  /** `order` lists every key of the table exactly once, as a range over a Go map does. */
  predicate Enumerates(order: seq<string>, k: Kline)
  {
    && Distinct(order)
    && (forall i :: 0 <= i < |order| ==> order[i] in k.symbolData)
    && (forall sym :: sym in k.symbolData ==> sym in order)
  }

  /** The trailing fill as written (kline.go:260-264): each series copy is filled up to
      minute 1441 and the copy is discarded. The scan's first read is slot 1440, one
      past the array, so the first series visited faults and nothing is ever filled. */
  function FillDataAsWritten(k: Kline, order: seq<string>, lookup: Series.PrevDayLookup): (r: Result<Kline, Series.Fault>)
    requires Valid(k) && Enumerates(order, k)
    ensures |k.symbolData| > 0 ==> r == Err(Series.IndexOutOfRange(SlotsPerDay))
    ensures |k.symbolData| == 0 ==> r == Ok(k)
  {
    if |order| == 0 then
      assert |k.symbolData| == 0 by {
        assert forall sym :: sym !in k.symbolData;
        assert k.symbolData.Keys == {};
      }
      Ok(k)
    else
      assert order[0] in k.symbolData;
      match Series.FillPrevData(k.symbolData[order[0]], SlotsPerDay + 1, lookup)
      case Err(e) => Err(e)
      // Unreachable: a fill past the last slot always faults (Series.FillPrevData).
      case Ok(_) => assert false; Ok(k)
  }

  /** The trailing fill as intended: every series, in `order`, is filled up to the end
      of the day (minute 1440) and stored back. The first series whose seed cannot be
      looked up stops the run. */
  function FillData(k: Kline, order: seq<string>, lookup: Series.PrevDayLookup): (r: Result<Kline, Series.Fault>)
    requires Valid(k) && Distinct(order)
    requires forall i :: 0 <= i < |order| ==> order[i] in k.symbolData
    ensures r.Ok? ==> Valid(r.value) && r.value.date == k.date && r.value.symbolData.Keys == k.symbolData.Keys
    ensures r.Ok? ==> forall i :: 0 <= i < |order| ==>
      Series.FillPrevData(k.symbolData[order[i]], SlotsPerDay, lookup) == Ok(r.value.symbolData[order[i]])
    ensures r.Ok? ==> forall sym :: sym in k.symbolData && sym !in order ==>
      r.value.symbolData[sym] == k.symbolData[sym]
    ensures r.Err? <==>
      exists i :: 0 <= i < |order| && Series.FillPrevData(k.symbolData[order[i]], SlotsPerDay, lookup).Err?
    decreases |order|
  {
    if |order| == 0 then Ok(k)
    else
      var sym := order[0];
      match Series.FillPrevData(k.symbolData[sym], SlotsPerDay, lookup)
      case Err(e) => Err(e)
      case Ok(s) =>
        var k' := k.(symbolData := k.symbolData[sym := s]);
        assert forall i :: 0 <= i < |order[1..]| ==> k'.symbolData[order[1..][i]] == k.symbolData[order[1..][i]] by {
          forall i | 0 <= i < |order[1..]| ensures k'.symbolData[order[1..][i]] == k.symbolData[order[1..][i]] {
            assert order[1..][i] == order[i + 1] != order[0];
          }
        }
        FillData(k', order[1..], lookup)
  }

  /** With every series gap-free and every seed stamped, the intended trailing fill
      succeeds and leaves no empty minute in any series it visits. */
  lemma FillDataCompletesDay(k: Kline, order: seq<string>, lookup: Series.PrevDayLookup)
    requires Valid(k) && AllGapFree(k) && Distinct(order)
    requires forall i :: 0 <= i < |order| ==> order[i] in k.symbolData
    requires forall sym :: sym in k.symbolData ==> Series.SeedStamped(k.symbolData[sym], lookup)
    ensures FillData(k, order, lookup).Ok?
    ensures forall i, m :: 0 <= i < |order| && 0 <= m < SlotsPerDay ==>
      !IsEmpty(FillData(k, order, lookup).value.symbolData[order[i]].datas[m])
  {
    forall i | 0 <= i < |order|
      ensures Series.FillPrevData(k.symbolData[order[i]], SlotsPerDay, lookup).Ok?
    {
      Series.FillCompletesDay(k.symbolData[order[i]], lookup);
    }
    var r := FillData(k, order, lookup).value;
    forall i, m | 0 <= i < |order| && 0 <= m < SlotsPerDay ensures !IsEmpty(r.symbolData[order[i]].datas[m]) {
      Series.FillCompletesDay(k.symbolData[order[i]], lookup);
    }
  }
}

=== FILE: export.dfy ===
/** The shapes of the exported tables (kline.go:116-121 and 266-368) without the CSV
    writer, the file names and the number formatting. */
module Export {
  import opened Outcomes
  import opened Buckets
  import opened Timeline
  import Series
  import Dataset

  /** The seven per-minute quantities the day is exported as, one pivot table each
      (kline.go:277-311). */
  datatype Metric = Open | High | Low | Close | BuyVol | SellVol | Turnover

  /** The amount a pivot table of `metric` shows for bucket `k`. The four price
      metrics of an ordered bucket lie between its low and its high. */
  function MetricOf(metric: Metric, k: KlineData): (v: real)
    ensures metric == Open ==> v == k.open
    ensures metric == High ==> v == k.high
    ensures metric == Low ==> v == k.low
    ensures metric == Close ==> v == k.close
    ensures metric == BuyVol ==> v == k.buyVol
    ensures metric == SellVol ==> v == k.sellVol
    ensures metric == Turnover ==> v == k.turnover
    ensures Ordered(k) && (metric.Open? || metric.High? || metric.Low? || metric.Close?) ==> k.low <= v <= k.high
  {
    match metric
    case Open => k.open
    case High => k.high
    case Low => k.low
    case Close => k.close
    case BuyVol => k.buyVol
    case SellVol => k.sellVol
    case Turnover => k.turnover
  }

  /** Position of a metric among the amount columns of a per-instrument row. */
  function Column(metric: Metric): nat
  {
    match metric
    case Open => 0
    case High => 1
    case Low => 2
    case Close => 3
    case BuyVol => 4
    case SellVol => 5
    case Turnover => 6
  }

  /** A table cell before formatting: an integer (a timestamp) or an amount. */
  datatype Cell = Integer(n: int) | Amount(v: real)

  datatype Table = Table(header: seq<string>, rows: seq<seq<Cell>>)

  /** One per-instrument row (kline.go:116-121): the bucket's own timestamp (the second
      of its last trade, not the minute), then one amount per metric. */
  function Record(k: KlineData): (r: seq<Cell>)
    ensures |r| == 8 && r[0] == Integer(k.timeStamp)
    ensures forall metric :: r[1 + Column(metric)] == Amount(MetricOf(metric, k))
  {
    [Integer(k.timeStamp), Amount(k.open), Amount(k.high), Amount(k.low), Amount(k.close),
     Amount(k.buyVol), Amount(k.sellVol), Amount(k.turnover)]
  }

  /** The per-instrument table (kline.go:363-366): one record per minute, in order. */
  function InstrumentTable(s: Series.KlineDatas): (t: Table)
    requires Series.Valid(s)
    ensures t.header == ["timestamp", "open", "high", "low", "close", "buyvol", "sellvol", "turnover"]
    ensures |t.rows| == SlotsPerDay
    ensures forall i :: 0 <= i < SlotsPerDay ==> t.rows[i] == Record(s.datas[i])
  {
    Table(["timestamp", "open", "high", "low", "close", "buyvol", "sellvol", "turnover"],
          seq(SlotsPerDay, i requires 0 <= i < SlotsPerDay => Record(s.datas[i])))
  }

  /** The pivot table of one metric (kline.go:316-346): header "Timestamp" and the
      symbols, then one row per minute holding the minute's epoch milliseconds and
      the metric of each symbol's bucket at that minute. Reading the first symbol's
      series faults when the table has no symbol. */
  function PivotTable(data: Dataset.Kline, symbols: seq<string>, metric: Metric): (r: Result<Table, Series.Fault>)
    requires Dataset.Valid(data) && Dataset.Enumerates(symbols, data)
    ensures r.Err? <==> |data.symbolData| == 0
    ensures r.Err? ==> r.error == Series.IndexOutOfRange(0)
    ensures r.Ok? ==>
      && r.value.header == ["Timestamp"] + symbols
      && |r.value.rows| == SlotsPerDay
      && (forall i :: 0 <= i < SlotsPerDay ==>
            |r.value.rows[i]| == |symbols| + 1 && r.value.rows[i][0] == Integer(data.date * 1000 + 60000 * i))
      && (forall i, j :: 0 <= i < SlotsPerDay && 1 <= j <= |symbols| ==>
            r.value.rows[i][j] == Amount(MetricOf(metric, data.symbolData[symbols[j - 1]].datas[i])))
  {
    if |symbols| == 0 then
      assert |data.symbolData| == 0 by {
        assert forall sym :: sym !in data.symbolData;
        assert data.symbolData.Keys == {};
      }
      Err(Series.IndexOutOfRange(0))
    else
      assert symbols[0] in data.symbolData;
      var rows := seq(SlotsPerDay, i requires 0 <= i < SlotsPerDay =>
        [Integer(data.date * 1000 + 60000 * i)] +
        seq(|symbols|, j requires 0 <= j < |symbols| => Amount(MetricOf(metric, data.symbolData[symbols[j]].datas[i]))));
      Ok(Table(["Timestamp"] + symbols, rows))
  }

  /** The day start of the first listed series, whose slots fix the number of rows
      (kline.go:338). Series of one table need not share a day start: each starts on
      the local date of its own first trade, and the stamps fit the first one only. */
  function PivotOrigin(data: Dataset.Kline, symbols: seq<string>): int
    requires Dataset.Enumerates(symbols, data) && |symbols| > 0
  {
    data.symbolData[symbols[0]].date
  }

  /** The pivot table as intended: row i is stamped with the first instant of minute i
      of the series it is read from, so the stamp and the buckets name the same minute.
      Every other cell is that of the written table. */
  function PivotTableIntended(data: Dataset.Kline, symbols: seq<string>, metric: Metric): (r: Result<Table, Series.Fault>)
    requires Dataset.Valid(data) && Dataset.Enumerates(symbols, data)
    ensures r.Err? <==> |data.symbolData| == 0
    ensures r.Err? ==> r.error == Series.IndexOutOfRange(0)
    ensures r.Ok? ==>
      && PivotTable(data, symbols, metric).Ok?
      && r.value.header == PivotTable(data, symbols, metric).value.header
      && |r.value.rows| == SlotsPerDay
      && (forall i :: 0 <= i < SlotsPerDay ==>
            && |r.value.rows[i]| == |symbols| + 1
            && r.value.rows[i][0] == Integer((PivotOrigin(data, symbols) + 60 * i) * 1000)
            && r.value.rows[i][1..] == PivotTable(data, symbols, metric).value.rows[i][1..])
  {
    match PivotTable(data, symbols, metric)
    case Err(e) => Err(e)
    case Ok(t) =>
      var origin := PivotOrigin(data, symbols);
      Ok(Table(t.header, seq(SlotsPerDay, i requires 0 <= i < SlotsPerDay =>
        [Integer((origin + 60 * i) * 1000)] + t.rows[i][1..])))
  }

  /** As written, a table dated apart from its series' day start stamps every row with
      an instant outside the minute its buckets hold. With `NewKline`'s midnight UTC
      and a day start at 08:00 local time this happens in every zone but UTC+8. */
  lemma PivotStampMisplaced(data: Dataset.Kline, symbols: seq<string>, metric: Metric)
    requires Dataset.Valid(data) && Dataset.Enumerates(symbols, data) && |symbols| > 0
    requires data.date != PivotOrigin(data, symbols)
    ensures PivotTable(data, symbols, metric).Ok?
    ensures forall i :: 0 <= i < SlotsPerDay ==>
      PivotTable(data, symbols, metric).value.rows[i][0] != Integer((PivotOrigin(data, symbols) + 60 * i) * 1000)
  {
  }

  /** With the intended stamps, every trade the series files in minute i (from the day
      start on) happened within the minute row i is stamped with. */
  lemma PivotStampCoversMinute(data: Dataset.Kline, symbols: seq<string>, metric: Metric, ts: nat)
    requires Dataset.Valid(data) && Dataset.Enumerates(symbols, data) && |symbols| > 0
    requires PivotOrigin(data, symbols) <= ts < PivotOrigin(data, symbols) + 60 * SlotsPerDay
    ensures PivotTableIntended(data, symbols, metric).Ok?
    ensures
      var i := MinuteIndex(ts, PivotOrigin(data, symbols));
      && 0 <= i < SlotsPerDay
      && PivotTableIntended(data, symbols, metric).value.rows[i][0].n <= ts * 1000
      && ts * 1000 < PivotTableIntended(data, symbols, metric).value.rows[i][0].n + 60000
  {
  }

  /** The two exports agree: the pivot cell of symbol j at minute i is the metric's
      column of row i in that symbol's per-instrument table. */
  lemma PivotMatchesInstrumentTable(data: Dataset.Kline, symbols: seq<string>, metric: Metric)
    requires Dataset.Valid(data) && Dataset.Enumerates(symbols, data) && |symbols| > 0
    ensures PivotTable(data, symbols, metric).Ok?
    ensures forall i, j :: 0 <= i < SlotsPerDay && 1 <= j <= |symbols| ==>
      PivotTable(data, symbols, metric).value.rows[i][j]
        == InstrumentTable(data.symbolData[symbols[j - 1]]).rows[i][1 + Column(metric)]
  {
  }
}

=== FILE: outcomes.dfy ===
/** Option and Result values for the model's partial operations. */
module Outcomes {

  /** A value that may be missing. */
  datatype Option<+T> = None | Some(value: T)

  /** The value of an operation that either succeeds or stops with an error. */
  datatype Result<+T, +E> = Ok(value: T) | Err(error: E)
}

=== FILE: series.dfy ===
/** One symbol's day of minute buckets (KlineDatas, kline.go:123-231): the backward
    scan for the last traded minute, the carry-forward fill, and trade ingestion. */
module Series {
  import opened Outcomes
  import opened Trades
  import opened Buckets
  import opened Timeline

  /** Market category (kline.go:19-33). */
  datatype Category = Spot | Future

  /** Why an operation stops the run: an array index outside the day's slots (a
      runtime panic in the source), or a previous-day archive that cannot be read
      (a fatal log in the source). */
  datatype Fault = IndexOutOfRange(index: int) | PrevDayUnavailable(symbol: string)

  datatype KlineDatas = KlineDatas(datas: seq<KlineData>, category: Category, date: int, symbol: string)

  /** The series holds exactly one bucket per minute of the day. */
  predicate Valid(s: KlineDatas)
  {
    |s.datas| == SlotsPerDay
  }

  /** Category, day start and symbol agree. */
  predicate SameHeader(a: KlineDatas, b: KlineDatas)
  {
    a.category == b.category && a.date == b.date && a.symbol == b.symbol
  }

  /** The last trade in the previous day's archive for (symbol, category, day start),
      or None when it cannot be had: the archive is missing, does not hold exactly one
      file, or that file cannot be opened (kline.go:157-189), or its last line does not
      parse as a trade, whether a bad field or fewer than seven fields (kline.go:55-61,
      190). The source logs fatally or panics in each case. */
  type PrevDayLookup = (string, Category, int) -> Option<Trade>

  /** A fresh series: every slot holds the zero bucket (kline.go:250-254). */
  function NewSeries(symbol: string, category: Category, date: int): (r: KlineDatas)
    ensures Valid(r) && r.symbol == symbol && r.category == category && r.date == date
    ensures forall i :: 0 <= i < SlotsPerDay ==> IsEmpty(r.datas[i]) && r.datas[i] == Zero
  {
    KlineDatas(seq(SlotsPerDay, _ => Zero), category, date, symbol)
  }

  /** The bucket built from the previous day's last trade. */
  function SeedOf(symbol: string, last: Trade): (r: KlineData)
    ensures r.open == last.price && r.high == last.price && r.low == last.price && r.close == last.price
    ensures r.price == 0.0 && r.buyVol == 0.0 && r.sellVol == 0.0 && r.turnover == 0.0
    ensures r.symbol == symbol && r.timeStamp == last.timeStamp
    ensures Ordered(r)
    ensures IsEmpty(r) <==> last.timeStamp == 0
  {
    KlineData(symbol, last.timeStamp, last.price, last.price, last.price, last.price, 0.0, 0.0, 0.0, 0.0)
  }

  /** The previous-day seed of a series (kline.go:157-204 with the archive reading
      abstracted into `lookup`). */
  function PrevDayData(s: KlineDatas, lookup: PrevDayLookup): (r: Result<KlineData, Fault>)
    ensures r.Err? <==> lookup(s.symbol, s.category, s.date).None?
    ensures r.Err? ==> r.error == PrevDayUnavailable(s.symbol)
    ensures r.Ok? ==> var last := lookup(s.symbol, s.category, s.date).value;
      && r.value.open == last.price && r.value.high == last.price
      && r.value.low == last.price && r.value.close == last.price
      && r.value.buyVol == 0.0 && r.value.sellVol == 0.0 && r.value.turnover == 0.0
      && r.value.timeStamp == last.timeStamp && r.value.symbol == s.symbol
  {
    match lookup(s.symbol, s.category, s.date)
    case None => Err(PrevDayUnavailable(s.symbol))
    case Some(last) => Ok(SeedOf(s.symbol, last))
  }

  /** The previous-day seed exists and carries a nonzero timestamp. */
  predicate SeedStamped(s: KlineDatas, lookup: PrevDayLookup)
  {
    lookup(s.symbol, s.category, s.date).Some? && lookup(s.symbol, s.category, s.date).value.timeStamp != 0
  }

  /** The greatest index below `m` whose slot is non-empty, or -1 when there is none. */
  function PrevFilled(datas: seq<KlineData>, m: int): (j: int)
    requires m <= |datas|
    ensures j == -1 || 0 <= j < m
    ensures 0 <= j ==> !IsEmpty(datas[j])
    ensures forall i :: j < i < m && 0 <= i ==> IsEmpty(datas[i])
    decreases m
  {
    if m <= 0 then -1
    else if !IsEmpty(datas[m - 1]) then m - 1
    else PrevFilled(datas, m - 1)
  }

  /** The scan below `m` only looks at the slots below `m`. */
  lemma PrevFilledFrame(a: seq<KlineData>, b: seq<KlineData>, m: int)
    requires m <= |a| && m <= |b|
    requires forall i :: 0 <= i < m ==> a[i] == b[i]
    ensures PrevFilled(a, m) == PrevFilled(b, m)
  {
  }

  /** The bucket the fill copies: the nearest earlier non-empty slot, or the
      previous-day seed when there is none. */
  function CarrySource(s: KlineDatas, m: int, lookup: PrevDayLookup): Result<KlineData, Fault>
    requires Valid(s) && m <= SlotsPerDay
  {
    var j := PrevFilled(s.datas, m);
    if j >= 0 then Ok(s.datas[j]) else PrevDayData(s, lookup)
  }

  /** The pair the backward scan returns: a bucket and its index (-1 for the seed). */
  datatype Prev = Prev(data: KlineData, index: int)

  /** The backward scan of kline.go:206-213. */
  method GetPrevData(s: KlineDatas, minutes: int, lookup: PrevDayLookup) returns (r: Result<Prev, Fault>)
    requires Valid(s)
    // the first read is slot minutes-1, which is outside the array for minutes > 1440
    ensures minutes > SlotsPerDay ==> r == Err(IndexOutOfRange(minutes - 1))
    ensures r.Ok? ==> (r.value.index == -1 || 0 <= r.value.index < minutes)
    ensures r.Ok? && 0 <= r.value.index ==>
      r.value.data == s.datas[r.value.index] && !IsEmpty(r.value.data)
    ensures r.Ok? ==> forall i :: r.value.index < i < minutes && 0 <= i ==> IsEmpty(s.datas[i])
    ensures r.Ok? && r.value.index == -1 ==> PrevDayData(s, lookup) == Ok(r.value.data)
    ensures minutes <= SlotsPerDay ==> match CarrySource(s, minutes, lookup)
      case Ok(d) => r == Ok(Prev(d, PrevFilled(s.datas, minutes)))
      case Err(e) => r == Err(e)
  {
    if minutes > SlotsPerDay {
      return Err(IndexOutOfRange(minutes - 1));
    }
    var i := minutes - 1;
    while i >= 0
      invariant i < minutes
      invariant PrevFilled(s.datas, minutes) == PrevFilled(s.datas, i + 1)
    {
      if s.datas[i].timeStamp != 0 {
        return Ok(Prev(s.datas[i], i));
      }
      i := i - 1;
    }
    match PrevDayData(s, lookup)
    case Ok(seed) =>
      r := Ok(Prev(seed, -1));
    case Err(e) =>
      r := Err(e);
  }

  /** `s` with `src` written into every slot strictly between `j` and `m`. */
  function CopyBetween(s: KlineDatas, j: int, m: int, src: KlineData): KlineDatas
    requires Valid(s)
  {
    s.(datas := seq(SlotsPerDay, i requires 0 <= i < SlotsPerDay => if j < i < m then src else s.datas[i]))
  }

  /** The carry-forward fill of kline.go:215-220. As written, each gap slot becomes an
      exact copy of the source bucket, volumes, turnover and timestamp included. */
  function FillPrevData(s: KlineDatas, minutes: int, lookup: PrevDayLookup): (r: Result<KlineDatas, Fault>)
    requires Valid(s)
    ensures r.Ok? ==> Valid(r.value) && SameHeader(r.value, s)
    ensures minutes > SlotsPerDay ==> r == Err(IndexOutOfRange(minutes - 1))
    ensures minutes <= SlotsPerDay ==>
      (r.Err? <==> PrevFilled(s.datas, minutes) == -1 && lookup(s.symbol, s.category, s.date).None?)
    ensures minutes <= SlotsPerDay && r.Err? ==> r.error == PrevDayUnavailable(s.symbol)
    ensures r.Ok? ==>
      && minutes <= SlotsPerDay
      && CarrySource(s, minutes, lookup).Ok?
      && var j := PrevFilled(s.datas, minutes);
         forall i :: 0 <= i < SlotsPerDay ==>
           r.value.datas[i] == (if j < i < minutes then CarrySource(s, minutes, lookup).value else s.datas[i])
  {
    if minutes > SlotsPerDay then Err(IndexOutOfRange(minutes - 1))
    else
      match CarrySource(s, minutes, lookup)
      case Err(e) => Err(e)
      case Ok(src) => Ok(CopyBetween(s, PrevFilled(s.datas, minutes), minutes, src))
  }

  /** Every slot between the last non-empty slot below `m` and `m` is non-empty
      after the fill when the seed is stamped; on a gap-free series the whole
      range below `m` is then non-empty. */
  lemma FillLeavesNoGap(s: KlineDatas, minutes: int, lookup: PrevDayLookup)
    requires Valid(s) && minutes <= SlotsPerDay && SeedStamped(s, lookup)
    ensures FillPrevData(s, minutes, lookup).Ok?
    ensures var r := FillPrevData(s, minutes, lookup).value;
      forall i :: PrevFilled(s.datas, minutes) < i < minutes && 0 <= i ==> !IsEmpty(r.datas[i])
    ensures GapFree(s) ==> var r := FillPrevData(s, minutes, lookup).value;
      forall i :: 0 <= i < minutes ==> !IsEmpty(r.datas[i])
  {
  }

  /** Filling twice at the same minute changes nothing more than filling once. */
  lemma FillPrevDataIdempotent(s: KlineDatas, minutes: int, lookup: PrevDayLookup)
    requires Valid(s) && FillPrevData(s, minutes, lookup).Ok?
    ensures var r := FillPrevData(s, minutes, lookup).value;
      FillPrevData(r, minutes, lookup) == Ok(r)
  {
    var r := FillPrevData(s, minutes, lookup).value;
    var j := PrevFilled(s.datas, minutes);
    var src := CarrySource(s, minutes, lookup).value;
    var j' := PrevFilled(r.datas, minutes);
    if 0 < minutes && (j >= 0 || !IsEmpty(src)) {
      if j < minutes - 1 {
        assert r.datas[minutes - 1] == src;
      } else {
        PrevFilledFrame(s.datas, r.datas, minutes);
      }
      assert j' == minutes - 1;
    } else if 0 < minutes {
      assert j' == -1 by {
        forall i | 0 <= i < minutes ensures IsEmpty(r.datas[i]) {
        }
      }
    }
    var again := FillPrevData(r, minutes, lookup);
    assert again.Ok?;
    assert again.value.datas == r.datas;
  }

  /** The non-empty slots form a prefix of the day: no empty slot lies below a non-empty one. */
  predicate GapFree(s: KlineDatas)
    requires Valid(s)
  {
    forall i, k :: 0 <= i < k < SlotsPerDay && !IsEmpty(s.datas[k]) ==> !IsEmpty(s.datas[i])
  }

  /** Every bucket of the series is ordered. */
  predicate AllOrdered(s: KlineDatas)
  {
    forall i :: 0 <= i < |s.datas| ==> Ordered(s.datas[i])
  }

  /** Ingest one trade (kline.go:222-231): update its minute's slot, then backfill the
      gap below it. The minute index is not checked against the day, so an index
      outside [0, 1440) faults on the array access. */
  function AddTrade(s: KlineDatas, t: Trade, lookup: PrevDayLookup): (r: Result<KlineDatas, Fault>)
    requires Valid(s)
    ensures var m := MinuteIndex(t.timeStamp, s.date);
      && (!(0 <= m < SlotsPerDay) ==> r == Err(IndexOutOfRange(m)))
      && (0 <= m < SlotsPerDay ==> (r.Err? <==> 0 < m && CarrySource(s, m, lookup).Err?))
      && (0 <= m < SlotsPerDay && r.Err? ==> r.error == PrevDayUnavailable(s.symbol))
      && (r.Ok? ==> 0 <= m < SlotsPerDay && Valid(r.value) && SameHeader(r.value, s))
    ensures var m := MinuteIndex(t.timeStamp, s.date);
      r.Ok? ==>
        && r.value.datas[m] == Update(s.datas[m], t)
        && (forall i :: m < i < SlotsPerDay ==> r.value.datas[i] == s.datas[i])
        && (forall i :: 0 <= i <= PrevFilled(s.datas, m) ==> r.value.datas[i] == s.datas[i])
        && (0 < m ==> CarrySource(s, m, lookup).Ok?)
        && (0 < m ==> forall i :: PrevFilled(s.datas, m) < i < m && 0 <= i ==>
              r.value.datas[i] == CarrySource(s, m, lookup).value)
  {
    var m := MinuteIndex(t.timeStamp, s.date);
    if m < 0 || m >= SlotsPerDay then Err(IndexOutOfRange(m))
    else
      var updated := s.(datas := s.datas[m := Update(s.datas[m], t)]);
      if m > 0 then
        PrevFilledFrame(s.datas, updated.datas, m);
        FillPrevData(updated, m, lookup)
      else Ok(updated)
  }

  /** Ingestion keeps the series gap-free, and afterwards every slot up to the
      trade's minute is non-empty. */
  lemma AddTradeKeepsGapFree(s: KlineDatas, t: Trade, lookup: PrevDayLookup)
    requires Valid(s) && GapFree(s) && t.timeStamp != 0 && SeedStamped(s, lookup)
    requires AddTrade(s, t, lookup).Ok?
    ensures Valid(AddTrade(s, t, lookup).value)
    ensures GapFree(AddTrade(s, t, lookup).value)
    ensures forall i :: 0 <= i <= MinuteIndex(t.timeStamp, s.date) ==> !IsEmpty(AddTrade(s, t, lookup).value.datas[i])
  {
  }

  /** Ingestion keeps every bucket ordered. */
  lemma AddTradeKeepsOrdered(s: KlineDatas, t: Trade, lookup: PrevDayLookup)
    requires Valid(s) && AllOrdered(s) && AddTrade(s, t, lookup).Ok?
    ensures AllOrdered(AddTrade(s, t, lookup).value)
  {
  }

  /** On a gap-free series with a stamped seed, filling up to the end of the day
      leaves no empty slot. */
  lemma FillCompletesDay(s: KlineDatas, lookup: PrevDayLookup)
    requires Valid(s) && GapFree(s) && SeedStamped(s, lookup)
    ensures FillPrevData(s, SlotsPerDay, lookup).Ok?
    ensures forall i :: 0 <= i < SlotsPerDay ==> !IsEmpty(FillPrevData(s, SlotsPerDay, lookup).value.datas[i])
  {
  }

  /** A day without trades is filled entirely from the previous day's last trade:
      every slot holds its price as open, high, low and close with zero volumes,
      or the fill fails when that trade cannot be looked up. */
  lemma EmptyDayFallback(s: KlineDatas, lookup: PrevDayLookup)
    requires Valid(s) && forall i :: 0 <= i < SlotsPerDay ==> IsEmpty(s.datas[i])
    ensures lookup(s.symbol, s.category, s.date).None? <==> FillPrevData(s, SlotsPerDay, lookup).Err?
    ensures lookup(s.symbol, s.category, s.date).Some? ==>
      var last := lookup(s.symbol, s.category, s.date).value;
      forall i :: 0 <= i < SlotsPerDay ==> FillPrevData(s, SlotsPerDay, lookup).value.datas[i] == SeedOf(s.symbol, last)
  {
  }

  /** A carried bucket that adds no volume to the day: open, high, low and close at
      the source's close, with no volume and no turnover. */
  function Flat(k: KlineData): (r: KlineData)
    ensures r.open == k.close && r.high == k.close && r.low == k.close && r.close == k.close
    ensures r.buyVol == 0.0 && r.sellVol == 0.0 && r.turnover == 0.0
    ensures r.timeStamp == k.timeStamp && r.symbol == k.symbol
    ensures Ordered(r)
  {
    k.(open := k.close, high := k.close, low := k.close, buyVol := 0.0, sellVol := 0.0, turnover := 0.0)
  }

  /** Corrected fill: gap slots receive the flattened source, so the carried minutes
      add no volume or turnover to the day. */
  function FillPrevDataIntended(s: KlineDatas, minutes: int, lookup: PrevDayLookup): (r: Result<KlineDatas, Fault>)
    requires Valid(s)
    ensures r.Ok? ==> Valid(r.value) && SameHeader(r.value, s)
    ensures r.Err? <==> FillPrevData(s, minutes, lookup).Err?
    ensures r.Ok? ==>
      && minutes <= SlotsPerDay
      && CarrySource(s, minutes, lookup).Ok?
      && var j := PrevFilled(s.datas, minutes);
         var close := CarrySource(s, minutes, lookup).value.close;
         forall i :: 0 <= i < SlotsPerDay ==>
           if j < i < minutes then
             && r.value.datas[i].open == close && r.value.datas[i].high == close
             && r.value.datas[i].low == close && r.value.datas[i].close == close
             && r.value.datas[i].buyVol == 0.0 && r.value.datas[i].sellVol == 0.0
             && r.value.datas[i].turnover == 0.0
           else r.value.datas[i] == s.datas[i]
  {
    if minutes > SlotsPerDay then Err(IndexOutOfRange(minutes - 1))
    else
      match CarrySource(s, minutes, lookup)
      case Err(e) => Err(e)
      case Ok(src) => Ok(CopyBetween(s, PrevFilled(s.datas, minutes), minutes, Flat(src)))
  }

  /** A trade five seconds into the day's first UTC hour, on a series whose day start
      is 08:00 UTC (a UTC time zone): the truncated index is -479 and the unchecked
      slot read faults, so such a run never reaches export. */
  lemma EarlyMorningTradeFaults(lookup: PrevDayLookup)
    ensures AddTrade(NewSeries("X", Spot, 28800), Trade(1, 1.0, 1.0, 5, false), lookup)
      == Err(IndexOutOfRange(-479))
  {
  }

  /** A buy of 1 at 100 in minute 0 of a fresh series. As written, the bucket already
      reports a sell volume of 1, where per-side accumulation gives 0. */
  lemma EndToEndFirstTrade(lookup: PrevDayLookup)
    ensures var s0 := NewSeries("X", Spot, 0);
      var b1 := KlineData("", 5, 100.0, 100.0, 100.0, 100.0, 100.0, 1.0, 1.0, 100.0);
      AddTrade(s0, Trade(1, 100.0, 1.0, 5, false), lookup) == Ok(s0.(datas := s0.datas[0 := b1]))
  {
  }

  /** Then a sell of 2 at 101 in the same minute. As written, the bucket reports a sell
      volume of 3 and a turnover of 202, where per-side accumulated volumes and summed
      turnover give 2 and 302. */
  lemma EndToEndSecondTrade(lookup: PrevDayLookup)
    ensures var s0 := NewSeries("X", Spot, 0);
      var b1 := KlineData("", 5, 100.0, 100.0, 100.0, 100.0, 100.0, 1.0, 1.0, 100.0);
      var b2 := KlineData("", 40, 100.0, 101.0, 100.0, 101.0, 101.0, 1.0, 3.0, 202.0);
      AddTrade(s0.(datas := s0.datas[0 := b1]), Trade(2, 101.0, 2.0, 40, true), lookup)
        == Ok(s0.(datas := s0.datas[0 := b2]))
  {
    var s0 := NewSeries("X", Spot, 0);
    var b1 := KlineData("", 5, 100.0, 100.0, 100.0, 100.0, 100.0, 1.0, 1.0, 100.0);
    var b2 := KlineData("", 40, 100.0, 101.0, 100.0, 101.0, 101.0, 1.0, 3.0, 202.0);
    assert MinuteIndex(40, 0) == 0;
    var s1 := s0.(datas := s0.datas[0 := b1]);
    assert Update(s1.datas[0], Trade(2, 101.0, 2.0, 40, true)) == b2;
    assert s1.datas[0 := b2] == s0.datas[0 := b2];
  }

  /** A buy of 1 at 99 in minute 3 after the trades of `EndToEndSecondTrade`.
      As written, minutes 1 and 2 become copies of minute 0, volumes included (a
      zero-volume carry at the earlier close would hold none), and minute 3 reports a
      sell volume of 1. */
  lemma EndToEndMinuteThree(lookup: PrevDayLookup)
    ensures var s0 := NewSeries("X", Spot, 0);
      var b2 := KlineData("", 40, 100.0, 101.0, 100.0, 101.0, 101.0, 1.0, 3.0, 202.0);
      var b3 := KlineData("", 190, 99.0, 99.0, 99.0, 99.0, 99.0, 1.0, 1.0, 99.0);
      var r := AddTrade(s0.(datas := s0.datas[0 := b2]), Trade(3, 99.0, 1.0, 190, false), lookup);
      && r.Ok?
      && r.value.datas[0] == b2 && r.value.datas[1] == b2 && r.value.datas[2] == b2
      && r.value.datas[3] == b3
      && forall i :: 3 < i < SlotsPerDay ==> r.value.datas[i] == Zero
  {
  }
}

=== FILE: timeline.dfy ===
/** Minute arithmetic of a trading day: which of the day's one-minute slots a trade lands in. */
module Timeline {
  import opened Outcomes

  /** Number of one-minute slots in a series (the array length at kline.go:124). */
  const SlotsPerDay: nat := 1440

  /** Integer division rounding toward zero, which is what converting the
      floating-point minute count to int does. */
  function TruncDiv(a: int, b: int): (q: int)
    requires b > 0
    ensures 0 <= a ==> 0 <= q && q * b <= a < q * b + b
    ensures a < 0 ==> q <= 0 && q * b - b < a <= q * b
  {
    if a >= 0 then a / b else -((-a) / b)
  }

  /** Slot of a trade at second `ts` in a series whose day starts at second `start`:
      the elapsed whole minutes, truncated toward zero (kline.go:223-224). */
  function MinuteIndex(ts: int, start: int): (m: int)
    ensures start <= ts ==> 0 <= m && start + m * 60 <= ts < start + m * 60 + 60
    ensures ts < start ==> m <= 0 && start + m * 60 - 60 < ts <= start + m * 60
    ensures start - 60 < ts < start ==> m == 0
  {
    TruncDiv(ts - start, 60)
  }

  /** The slot index is a valid array index exactly for the trades from 59 seconds
      before the day start up to the end of the day's last minute. The 59 seconds
      before the start land in slot 0 because the division truncates toward zero. */
  lemma MinuteIndexInDay(ts: int, start: int)
    ensures 0 <= MinuteIndex(ts, start) < SlotsPerDay <==> start - 59 <= ts < start + SlotsPerDay * 60
  {
  }

  /** The reason a trade cannot be placed in the day. */
  datatype RangeError = BeforeDay(ts: int) | AfterDay(ts: int)

  /** Corrected slot computation: floor division, and a trade outside the day is
      an error instead of a silent placement in slot 0 or an index fault. */
  function CheckedMinuteIndex(ts: int, start: int): (r: Result<nat, RangeError>)
    ensures r.Ok? <==> start <= ts < start + SlotsPerDay * 60
    ensures r.Ok? ==> r.value < SlotsPerDay && start + r.value * 60 <= ts < start + r.value * 60 + 60
    ensures r.Err? && ts < start ==> r.error == BeforeDay(ts)
  {
    if ts < start then Err(BeforeDay(ts))
    else if ts >= start + SlotsPerDay * 60 then Err(AfterDay(ts))
    else Ok((ts - start) / 60)
  }

  /** A trade up to 59 seconds before the day start is filed in slot 0 as though it
      happened in the day's first minute; the corrected computation rejects it. */
  lemma EarlyTradeLandsInMinuteZero(ts: int, start: int)
    requires start - 60 < ts < start
    ensures MinuteIndex(ts, start) == 0
    ensures CheckedMinuteIndex(ts, start) == Err(BeforeDay(ts))
  {
  }
}

=== FILE: trades.dfy ===
/** One parsed trade line (kline.go:45-73). Prices and volumes are exact reals. */
module Trades {

  datatype Trade = Trade(tradeId: nat, price: real, vol: real, timeStamp: nat, isSell: bool)

  /** The trade's timestamp: the archive's millisecond field divided by 1000 with
      truncation (kline.go:69), so it names the second in which the trade happened. It records
      that conversion only: `Trade.timeStamp` is taken as already converted. */
  function MillisToSeconds(ms: nat): (s: nat)
    ensures s * 1000 <= ms < s * 1000 + 1000
  {
    ms / 1000
  }
}
